=== FILE: README.md ===
# Movie pipeline and post state rules — a verified model

This project models the logic core of a small blog backend with movie
recommendations. It covers four parts:

- **Box-office response decoding** (`MovieSearchClient`). An already-parsed JSON
  tree becomes movie records. A missing or wrong-typed container fails with one of
  three business errors. A missing field reads as `""`. A detail record's genre
  names are joined with `", "`.
- **Genre enrichment and tag-based recommendation** (`MovieService`). Every daily
  entry that has a movie code gets its genre from a detail lookup. A business
  failure of one lookup leaves that entry unchanged. The recommendation keeps the
  first three entries whose title contains one of the tags recommended for a post.
- **Post, tag and image state rules** (`PostService`). Saving, updating and deleting
  a post, and removing its image, are transitions over a repository state. The
  state holds members, posts, tags and post-tag links, plus a log of uploads,
  delete requests and tag-recommendation calls.
- **Object-store rules** (`S3Uploader`). The upload key layout, how a key is taken
  from a URL path, and when a delete is skipped.

Everything is immutable datatypes and pure functions. Calls to outside systems
are parameters (oracles): the two box-office GET requests, the tag recommender,
URI parsing, the store's URL and delete calls, the random UUID, the entity's own
`update`, and Java's `toString` of a nested JSON value.

Java `null` strings are `None` in `Option<string>`. A failure is either
`Business(code)`, a BusinessException, or `Unchecked`, any other exception: a
ClassCastException or NullPointerException on an unexpected JSON shape, or a
transport error. The HTTP client reports a transport error with its own runtime
exception, so a GET yields either a body or a transport error, and the latter is
always `Unchecked`. Enrichment tolerates only the business kind, as the code
does, so a transport error on any detail request aborts the whole list.

Where descriptions of the service and the code differ, the model follows the code.
The comments at `movie/application/MovieService.java:42` and `:56` say that an
entry without a code, or whose lookup fails with a business error, is returned
"without a genre". The code returns that entry unchanged. So it keeps the genre it
was decoded with, which is the list item's `genreAlt`. That is `""` when the key
is absent, and null when the item's `genreAlt` is a JSON null.

Files: `wrappers.dfy` (Option, Result, in-order fallible map), `errors.dfy`,
`json_tree.dfy`, `strings.dfy` (join, contains), `movie_dto.dfy`,
`movie_search_client.dfy`, `movie_service.dfy`, `s3_uploader.dfy`,
`post_store.dfy` (entities, repository queries, invariant), `post_service.dfy`.

## Model

| member | source | states |
|---|---|---|
| Wrappers.MapResult | jongbum/Assignment07/src/main/java/com/likelion/basecode/common/client/MovieSearchClient.java:80-82 | a stream map-and-collect either fails with the first failing element's error, or yields one result per element, in order |
| Strings.Join | jongbum/Assignment07/src/main/java/com/likelion/basecode/common/client/MovieSearchClient.java:127-129 | `Collectors.joining`: no names join to ""; a non-empty join starts with the first name and its length is the names' total plus one separator between each pair of neighbours |
| Strings.JoinAppend | jongbum/Assignment07/src/main/java/com/likelion/basecode/common/client/MovieSearchClient.java:127-129 | joining two non-empty lists of genre names puts exactly one separator between the two joins |
| Strings.JoinContainsParts | jongbum/Assignment07/src/main/java/com/likelion/basecode/common/client/MovieSearchClient.java:127-129 | every genre name occurs verbatim in the joined genre string |
| Strings.Contains | jongbum/Assignment07/src/main/java/com/likelion/basecode/movie/application/MovieService.java:97-99 | `String.contains`: a prefix is contained, a contained string is never longer than the title, and between strings of equal length containment is equality |
| Strings.ContainsIffOccurs | jongbum/Assignment07/src/main/java/com/likelion/basecode/movie/application/MovieService.java:97-99 | `contains` holds exactly when the tag occurs at some position of the title, in both directions |
| MovieSearchClient.Received | jongbum/Assignment07/src/main/java/com/likelion/basecode/common/client/MovieSearchClient.java:117 | a GET succeeds exactly when a reply arrives and then hands over its body, possibly none; a transport error is always an unchecked failure, never a business one |
| MovieSearchClient.CastToMap | jongbum/Assignment07/src/main/java/com/likelion/basecode/common/client/MovieSearchClient.java:136-145 | succeeds exactly on a JSON object and returns its members; anything else, including absent and null, fails with the given business code |
| MovieSearchClient.ExtractItemList | jongbum/Assignment07/src/main/java/com/likelion/basecode/common/client/MovieSearchClient.java:87-97 | a missing or non-object `boxOfficeResult` fails with MOVIE_API_BODY_MALFORMED; otherwise a missing or non-list `dailyBoxOfficeList` fails with MOVIE_API_ITEM_MALFORMED; otherwise the list's items are returned |
| MovieSearchClient.StringField | jongbum/Assignment07/src/main/java/com/likelion/basecode/common/client/MovieSearchClient.java:100-108 | a missing key reads as "", a string as itself, a null as null; any other value fails the cast, and no decoding exists for it |
| MovieSearchClient.ToDto | jongbum/Assignment07/src/main/java/com/likelion/basecode/common/client/MovieSearchClient.java:100-108 | succeeds exactly when the item is an object whose five fields all decode; each record field then decodes from movieCd, movieNm, openDt, repNationNm and genreAlt |
| MovieSearchClient.DecodeDailyBoxOffice | jongbum/Assignment07/src/main/java/com/likelion/basecode/common/client/MovieSearchClient.java:75-82 | a null body fails with MOVIE_API_RESPONSE_NULL; container errors pass through; otherwise one record per item, in order, or an unchecked failure when some item does not decode |
| MovieSearchClient.FetchDailyBoxOffice | jongbum/Assignment07/src/main/java/com/likelion/basecode/common/client/MovieSearchClient.java:43-83 | a transport error is an unchecked failure; otherwise the body returned for the target date is decoded |
| MovieSearchClient.GenreList | jongbum/Assignment07/src/main/java/com/likelion/basecode/common/client/MovieSearchClient.java:126 | a missing `genres` reads as no genres; a list gives its elements; a null or any other value fails |
| MovieSearchClient.GenreName | jongbum/Assignment07/src/main/java/com/likelion/basecode/common/client/MovieSearchClient.java:127-128 | a genre element must be an object; a missing `genreNm` contributes "", a string contributes itself, a null fails, any other value contributes its toString |
| MovieSearchClient.DecodeMovieDetail | jongbum/Assignment07/src/main/java/com/likelion/basecode/common/client/MovieSearchClient.java:117-131 | a null body fails with MOVIE_API_RESPONSE_NULL; a non-object movieInfoResult or movieInfo fails with MOVIE_API_BODY_MALFORMED; decoding succeeds exactly when both containers are objects, `genres` is absent or a list, and every element yields a name; once both containers are objects, any failure is unchecked, so enrichment does not tolerate it; the genre string is then the element names joined with ", " |
| MovieSearchClient.FetchMovieDetail | jongbum/Assignment07/src/main/java/com/likelion/basecode/common/client/MovieSearchClient.java:110-132 | a transport error is an unchecked failure; otherwise the body returned for the movie code is decoded |
| MovieSearchClient.ItemRoundTrip | jongbum/Assignment07/src/main/java/com/likelion/basecode/common/client/MovieSearchClient.java:100-108 | a box-office item carrying a record's five fields, each as a string or a null, decodes back to that record |
| MovieSearchClient.DailyBoxOfficeRoundTrip | jongbum/Assignment07/src/main/java/com/likelion/basecode/common/client/MovieSearchClient.java:75-108 | decoding a well-formed daily response returns exactly the movies it lists, in order |
| MovieSearchClient.MovieDetailRoundTrip | jongbum/Assignment07/src/main/java/com/likelion/basecode/common/client/MovieSearchClient.java:117-131 | decoding a well-formed detail response gives its genre names joined with ", " |
| MovieSearchClient.MissingGenresDecodeEmpty | jongbum/Assignment07/src/main/java/com/likelion/basecode/common/client/MovieSearchClient.java:126-131 | a movieInfo without `genres` decodes to the empty genre string |
| MovieSearchClient.DetailGenreContainsEachName | jongbum/Assignment07/src/main/java/com/likelion/basecode/common/client/MovieSearchClient.java:126-129 | every string genre name of a decoded detail record appears in its genre string |
| MovieSearchClient.GenreJoinExample | jongbum/Assignment07/src/main/java/com/likelion/basecode/common/client/MovieSearchClient.java:126-129 | genres Drama and Action decode to "Drama, Action"; no genres decode to "" |
| MovieService.EnrichOne | jongbum/Assignment07/src/main/java/com/likelion/basecode/movie/application/MovieService.java:38-58 | the per-entry step fails exactly when the entry has a code and its lookup fails with a non-business exception; on success the code, title, opening date and nation are kept, and a successful lookup always replaces the genre with the looked-up one, while otherwise the entry is returned as it was |
| MovieService.Enrich | jongbum/Assignment07/src/main/java/com/likelion/basecode/movie/application/MovieService.java:37-59 | one entry out per entry in, in order; an entry without a code, or whose lookup fails with a business error, is unchanged; a successful lookup sets the genre and keeps the other four fields; only a non-business failure aborts the batch |
| MovieService.EnrichLooksUpOnlyCodes | jongbum/Assignment07/src/main/java/com/likelion/basecode/movie/application/MovieService.java:40-45 | the result depends on the detail service only at the codes of entries that have a non-empty code, so no lookup is made for the others |
| MovieService.EnrichIsolatesEntries | jongbum/Assignment07/src/main/java/com/likelion/basecode/movie/application/MovieService.java:54-57 | changing the lookup outcome of one code changes no entry with another code |
| MovieService.DetailTransportErrorAborts | jongbum/Assignment07/src/main/java/com/likelion/basecode/movie/application/MovieService.java:44-57 | a transport error on the detail request of any entry with a code is not caught by the business-exception handler and aborts the whole list with an unchecked failure |
| MovieService.FetchAllWithGenres | jongbum/Assignment07/src/main/java/com/likelion/basecode/movie/application/MovieService.java:30-62 | a failure of the daily list propagates; otherwise the list is enriched with lookups through the detail request |
| MovieService.Matching | jongbum/Assignment07/src/main/java/com/likelion/basecode/movie/application/MovieService.java:91-101 | every kept movie's title (null read as "") contains some tag, every matching movie is kept, the result is a subsequence of the list, and its length is the number of matching entries, repeats included |
| MovieService.FilterMoviesByMovieName | jongbum/Assignment07/src/main/java/com/likelion/basecode/movie/application/MovieService.java:90-106 | at most three movies, each matching, in list order; the result is the first of the matching movies; with fewer than three every matching movie is kept; empty exactly when none matches |
| MovieService.FilterOfThreeTitles | jongbum/Assignment07/src/main/java/com/likelion/basecode/movie/application/MovieService.java:90-106 | for any three titles where the first starts with the first tag, the third starts with the second tag, and the middle one contains no tag, the filter keeps the first and the third |
| MovieService.FilterExample | jongbum/Assignment07/src/main/java/com/likelion/basecode/movie/application/MovieService.java:90-106 | tags Parasite and Action over "Parasite 2", "Romance Tale" and "Action Hero" keep the first and the third |
| MovieService.RecommendMoviesByPostId | jongbum/Assignment07/src/main/java/com/likelion/basecode/movie/application/MovieService.java:65-87 | a missing post fails with POST_NOT_FOUND_EXCEPTION; an empty tag list fails with TAG_RECOMMENDATION_EMPTY, whatever the box-office service would return; a list failure propagates; no match fails with MOVIE_API_NO_RESULT; when the list has a matching movie the result is exactly the filtered list, one to three movies |
| MovieService.RecommendedMoviesMatch | jongbum/Assignment07/src/main/java/com/likelion/basecode/movie/application/MovieService.java:79-86 | every recommended movie is an entry of the enriched daily list whose title contains one of the tags recommended for the post |
| S3Uploader.UploadKey | jongbum/Assignment07/src/main/java/com/likelion/basecode/common/s3/S3Uploader.java:31 | the key starts with the directory and "/", then the UUID, and ends with "_" and the original file name (a null name reads as "null") |
| S3Uploader.Upload | jongbum/Assignment07/src/main/java/com/likelion/basecode/common/s3/S3Uploader.java:30-44 | an unreadable file fails with S3_UPLOAD_FAIL and a readable one always uploads; on success the object is stored under the upload key and the URL is the store's URL for that key |
| S3Uploader.KeyFromPath | jongbum/Assignment07/src/main/java/com/likelion/basecode/common/s3/S3Uploader.java:78-82 | a path starting with "/" is "/" followed by the key; any other path is the key itself |
| S3Uploader.GetFileKeyFromUrl | jongbum/Assignment07/src/main/java/com/likelion/basecode/common/s3/S3Uploader.java:75-87 | a syntax error gives a null key; a null path throws; a path gives its key |
| S3Uploader.DeleteFile | jongbum/Assignment07/src/main/java/com/likelion/basecode/common/s3/S3Uploader.java:46-71 | a null or empty URL issues no request; a request is issued exactly when the URL is non-empty, parses to a path and that path's key is non-empty, and it is for that key; a URL with a syntax error, or whose key is empty, is skipped without a request; the outcome is never a failure to the caller |
| S3Uploader.UploadThenDeleteRequestsKey | jongbum/Assignment07/src/main/java/com/likelion/basecode/common/s3/S3Uploader.java:30-87 | when the store's URL for an uploaded key has path "/" plus that key, deleting by the URL requests exactly that key |
| PostStore.FindTagByName | jongbum/Assignment07/src/main/java/com/likelion/basecode/post/application/PostService.java:191 | returns the first tag carrying the name, and nothing exactly when no tag has it |
| PostStore.TagNamesOfGrow | jongbum/Assignment07/src/main/java/com/likelion/basecode/post/application/PostService.java:191-192 | creating tags does not change the names existing links point at |
| PostStore.RemoveLinksOf | jongbum/Assignment07/src/main/java/com/likelion/basecode/post/application/PostService.java:126 | no link of the post remains, every other link is kept, and nothing new appears |
| PostStore.RemoveLinksOfNames | jongbum/Assignment07/src/main/java/com/likelion/basecode/post/application/PostService.java:126-129 | after removing a post's links it has no tags and every other post has exactly its former tags |
| PostService.UploadImage | jongbum/Assignment07/src/main/java/com/likelion/basecode/post/application/PostService.java:49-52 | only a file that is present and non-empty is uploaded, under the post-images directory; an unreadable one fails with S3_UPLOAD_FAIL |
| PostService.LinkTag | jongbum/Assignment07/src/main/java/com/likelion/basecode/post/application/PostService.java:191-197 | an existing tag of the name is reused and the tag store is unchanged; otherwise exactly one tag with that name is appended; one link from the post to a tag of that name is appended |
| PostService.LinkTagNames | jongbum/Assignment07/src/main/java/com/likelion/basecode/post/application/PostService.java:191-197 | one find-or-create step keeps tag names unique and adds the name to the post's tags and to no other post's |
| PostService.RegisterTagsToPost | jongbum/Assignment07/src/main/java/com/likelion/basecode/post/application/PostService.java:188-199 | only tags and links change; both only grow at the end, with one new link per name |
| PostService.RegisterTagsNames | jongbum/Assignment07/src/main/java/com/likelion/basecode/post/application/PostService.java:188-199 | the post's tags become its former tags followed by exactly the given names in order; other posts keep theirs |
| PostService.RegisterTagsUnique | jongbum/Assignment07/src/main/java/com/likelion/basecode/post/application/PostService.java:188-192 | tag names stay unique, new tags carry only given names, and every given name ends up with a tag |
| PostService.RegisterTagsOwner | jongbum/Assignment07/src/main/java/com/likelion/basecode/post/application/PostService.java:195-197 | every added link belongs to the post |
| PostService.RegisterTagsValid | jongbum/Assignment07/src/main/java/com/likelion/basecode/post/application/PostService.java:188-199 | linking tags to an existing post keeps the repository invariant |
| PostService.LinkRecommended | jongbum/Assignment07/src/main/java/com/likelion/basecode/post/application/PostService.java:188-199 | for an existing post the invariant holds afterwards; only tags and links change; the tag store keeps its tags and gains only given names; the post's tags grow by exactly the names in order; other posts keep theirs |
| PostService.PostSave | jongbum/Assignment07/src/main/java/com/likelion/basecode/post/application/PostService.java:44-75 | an unknown member fails with MEMBER_NOT_FOUND_EXCEPTION and nothing else does; an unreadable image fails with S3_UPLOAD_FAIL; every other request succeeds; on success the members are unchanged, the new post takes the next id and the counter advances; a new post with the request's text exists, its image URL is the upload's URL only for a non-empty file and null otherwise, its tags are exactly the recommended names, the tag store keeps every existing tag and gains only recommended names, other posts are untouched, and the invariant holds |
| PostService.Retag | jongbum/Assignment07/src/main/java/com/likelion/basecode/post/application/PostService.java:122-133 | stores the revised post, and its tags become exactly the names recommended for its new contents; the tag store keeps every existing tag and gains only recommended names; other posts keep their tags; members and the id counter are unchanged; the invariant holds |
| PostService.PostUpdate | jongbum/Assignment07/src/main/java/com/likelion/basecode/post/application/PostService.java:95-136 | a missing post fails with POST_NOT_FOUND_EXCEPTION; an unreadable image fails with S3_UPLOAD_FAIL; every other request succeeds, leaving members and the id counter unchanged; without a non-empty file the image URL stays and no upload or delete happens; with one the URL becomes the new upload's and the old URL is deleted only if non-null and non-empty; the tags are exactly those recommended for the new contents, and the tag store keeps every existing tag and gains only recommended names |
| PostService.UpdateWithImage | jongbum/Assignment07/src/main/java/com/likelion/basecode/post/application/PostService.java:103-133 | after the image step, a new upload replaces the URL and asks for a non-empty old URL to be deleted, and without one the URL stays; the post is revised and its tags become exactly the recommended names; the tag store only grows by recommended names; the log records upload, delete and tag request in that order |
| PostService.PostDelete | jongbum/Assignment07/src/main/java/com/likelion/basecode/post/application/PostService.java:140-151 | a missing post fails and an existing one is always deleted; members, tags and the id counter are unchanged; a delete is requested only for a non-null, non-empty URL; the post and its links are removed; other posts keep their tags |
| PostService.RemovePostImage | jongbum/Assignment07/src/main/java/com/likelion/basecode/post/application/PostService.java:155-185 | a missing post fails and nothing else does; members and the id counter are unchanged; the old URL is always handed to the delete, the URL becomes null, and the tags are exactly those recommended for the new contents |

## Left out

- HTTP transport, URI building and the API key: the box-office and detail requests are oracles returning the parsed body, no body, or a transport error.
- The tag-recommendation client is an oracle from contents to a list of tags. The client turns a null response or a missing `tags` field into an empty list, and the oracle's empty list covers both. Transport failures of the recommender and null elements in its list are not modelled.
- A recommender response whose `tags` is a JSON null is not modelled. The client then returns a null list, and `tags.isEmpty()` at `movie/application/MovieService.java:72` throws a NullPointerException, as does the loop over the tags when a post is saved or updated. The oracle always returns a list.
- "Yesterday" as the target date depends on the clock, so the target date is a parameter.
- Logging, pretty-printed JSON dumps and console output are instrumentation and are not modelled.
- The storage SDK: `putObject` and `getUrl` are not modelled as failing, and the object metadata (size, content type) is not modelled. `getUrl` is an oracle, and `deleteObject` is an oracle returning success or a swallowed exception.
- `UUID.randomUUID()` is an uninterpreted UUID string handed to each transition.
- `java.net.URI` parsing is an oracle giving a syntax error, a null path or a path.
- JPA details are not modelled: lazy loading, the bidirectional collection clearing, and id generation beyond a counter. A transaction that fails leaves the store unchanged, which the model shows by returning a failure without a store.
- Post titles and contents are non-null strings throughout: in requests, in stored posts and in what the `revise` oracle returns. In the code, a null contents makes `Map.of("contents", contents)` at `common/client/TagRecommendationClient.java:31` throw a NullPointerException. That exception would fail `postSave` after the image has been uploaded, and also `postUpdate`, `removePostImage` and `recommendMoviesByPostId`. The model leaves that path out, so the "every other request succeeds" clauses of PostService.PostSave and PostService.PostUpdate hold only for non-null contents. The reason is that the code never checks for this null; it only fails on it, and modelling the text as nullable would add an unhandled crash path to every transition.
- `Post.update` is not part of this model. Its effect on title and contents is an oracle.
- PostService.PostSave: assumes the re-query `postRepository.findByIdWithTags` after saving (`post/application/PostService.java:70`) finds the post just saved, even when it has no tag links. That repository query is not part of this model. A query that drops untagged posts would make saving fail with POST_NOT_FOUND_EXCEPTION, and the success clause assumes it does not.
- PostService.PostUpdate: assumes the first lookup `findByIdWithTags` (`post/application/PostService.java:99`) finds every stored post, including one with no tag links. The clause "fails with POST_NOT_FOUND_EXCEPTION exactly when the post is missing" rests on this.
- PostService.RemovePostImage: makes the same assumption for its first lookup (`post/application/PostService.java:159`), and its "fails exactly when the post is missing" clause rests on it.
- PostService.PostDelete: removes the post's tag links together with the post. This assumes the entity cascades; the entity mapping is not part of this model.
- `postFindMember` is a read-only listing with no state rule and is not modelled.
- Response DTO construction (`PostInfoResponseDto`, `MovieListResponseDto`) and the controller are routing glue and are not modelled.
- JSON objects are unordered maps, so duplicate keys and key order are not modelled. Java's `toString` of a nested object or list is an oracle. JSON numbers and booleans are not in the model.

=== FILE: errors.dfy ===
/** The ways a call in the core can end other than with a value. */
module Errors {

  /** The business error codes the core raises (the ErrorCode enum of the application). */
  datatype ErrorCode =
    | MovieApiResponseNull
    | MovieApiBodyMalformed
    | MovieApiItemMalformed
    | MovieApiNoResult
    | TagRecommendationEmpty
    | PostNotFound
    | MemberNotFound
    | S3UploadFail

  /** `Business(code)` is a BusinessException carrying `code`. `Unchecked` is any other
      Java exception the core lets escape: a ClassCastException or NullPointerException on
      an unexpected JSON shape, or a transport error from an HTTP client. Handlers in the
      core catch only the first kind. */
  datatype Failure = Business(code: ErrorCode) | Unchecked
}

=== FILE: json_tree.dfy ===
/** An already-parsed JSON document, as the HTTP client hands it over: nested
    maps, lists, strings and nulls. */
module JsonTree {
  import opened Wrappers

  datatype Json =
    | JNull
    | JString(str: string)
    | JArray(elems: seq<Json>)
    | JObject(fields: map<string, Json>)

  /** A JSON object's members by key. */
  type Object = map<string, Json>

  /** `Map.get(key)`: None when the key is absent; a present JSON null is `Some(JNull)`. */
  function Get(m: Object, key: string): Option<Json> {
    if key in m then Some(m[key]) else None
  }
}

=== FILE: movie_dto.dfy ===
/** The two movie records the pipeline passes around. Each field is a Java
    `String` reference: None models `null`. */
module MovieDto {
  import opened Wrappers

  /** One daily box-office entry (MovieResponseDto): movie code, title, opening
      date, representative nation and the comma-joined genre names. */
  datatype Movie = Movie(
    movieCd: Option<string>,
    movieNm: Option<string>,
    openDt: Option<string>,
    repNationNm: Option<string>,
    genreNm: Option<string>)

  /** The part of a movie detail record the pipeline keeps (MovieInfoResponseDto). */
  datatype MovieInfo = MovieInfo(genre: string)
}

=== FILE: movie_search_client.dfy ===
/** Decoding of the two box-office API responses into movie records. The HTTP
    calls themselves are oracles: they take the query value and hand back the
    parsed body, or fail. */
module MovieSearchClient {
  import opened Wrappers
  import opened Errors
  import opened JsonTree
  import opened MovieDto
  import Strings

  /** A response body as the HTTP client returns it: None when there is no body. */
  type Body = Option<Object>

  /** What one GET request yields: the parsed body (possibly none), or a transport
      error. The HTTP client signals the latter with its own runtime exception,
      never with a business exception. */
  datatype Reply = Reply(body: Body) | TransportError

  /** The outside world the client talks to. `boxOffice(targetDt)` and
      `movieInfo(movieCd)` are the two GET requests; `render` is Java's `toString`
      of a JSON object or list, which the detail decoding applies to a `genreNm`
      value that is not a string. */
  datatype Gateway = Gateway(
    boxOffice: string -> Reply,
    movieInfo: string -> Reply,
    render: Json -> string)

  /** The body of a reply; a transport error escapes as an unchecked exception. */
  function Received(reply: Reply): (r: Result<Body, Failure>)
    ensures r.Success? <==> reply.Reply?
    ensures r.Success? ==> r.value == reply.body
    ensures r.Failure? ==> r.error == Unchecked
  {
    match reply
    case Reply(body) => Success(body)
    case TransportError => Failure(Unchecked)
  }

  /** Separator between genre names in a detail record's genre string. */
  const GenreSeparator := ", "

  /** Accepts a JSON object and fails with the business error `code` on anything
      else, including an absent value and a JSON null. */
  function CastToMap(obj: Option<Json>, code: ErrorCode): (r: Result<Object, Failure>)
    ensures r.Success? <==> obj.Some? && obj.value.JObject?
    ensures r.Success? ==> obj == Some(JObject(r.value))
    ensures r.Failure? ==> r.error == Business(code)
  {
    match obj
    case Some(JObject(m)) => Success(m)
    case _ => Failure(Business(code))
  }

  /** The items under `boxOfficeResult.dailyBoxOfficeList`. */
  function ExtractItemList(response: Object): (r: Result<seq<Json>, Failure>)
    ensures !(("boxOfficeResult" in response) && response["boxOfficeResult"].JObject?) ==>
      r == Failure(Business(MovieApiBodyMalformed))
    ensures "boxOfficeResult" in response && response["boxOfficeResult"].JObject? ==>
      var result := response["boxOfficeResult"].fields;
      if "dailyBoxOfficeList" in result && result["dailyBoxOfficeList"].JArray?
      then r == Success(result["dailyBoxOfficeList"].elems)
      else r == Failure(Business(MovieApiItemMalformed))
  {
    var result :- CastToMap(Get(response, "boxOfficeResult"), MovieApiBodyMalformed);
    match Get(result, "dailyBoxOfficeList")
    case Some(JArray(items)) => Success(items)
    case _ => Failure(Business(MovieApiItemMalformed))
  }

  /** How one field of an item decodes: an absent key reads as "", a JSON string
      as itself and a JSON null as null. Nothing else is a legal field value. */
  predicate FieldDecodesTo(item: Object, key: string, f: Option<string>) {
    if key !in item then f == Some("")
    else match item[key]
      case JString(v) => f == Some(v)
      case JNull => f == None
      case _ => false
  }

  /** `(String) item.getOrDefault(key, "")`: a present object or list fails the cast. */
  function StringField(item: Object, key: string): (r: Result<Option<string>, Failure>)
    ensures r.Success? ==> FieldDecodesTo(item, key, r.value)
    ensures r.Failure? ==> r.error == Unchecked && forall f :: !FieldDecodesTo(item, key, f)
  {
    match Get(item, key)
    case None => Success(Some(""))
    case Some(JString(v)) => Success(Some(v))
    case Some(JNull) => Success(None)
    case Some(_) => Failure(Unchecked)
  }

  /** One box-office item as a movie record; the genre comes from `genreAlt`. An
      item that is not an object throws. */
  function ToDto(item: Json): (r: Result<Movie, Failure>)
    ensures r.Success? <==>
      item.JObject? &&
      (exists c, n, o, rn, g ::
        FieldDecodesTo(item.fields, "movieCd", c) && FieldDecodesTo(item.fields, "movieNm", n) &&
        FieldDecodesTo(item.fields, "openDt", o) && FieldDecodesTo(item.fields, "repNationNm", rn) &&
        FieldDecodesTo(item.fields, "genreAlt", g))
    ensures r.Success? ==>
      FieldDecodesTo(item.fields, "movieCd", r.value.movieCd) &&
      FieldDecodesTo(item.fields, "movieNm", r.value.movieNm) &&
      FieldDecodesTo(item.fields, "openDt", r.value.openDt) &&
      FieldDecodesTo(item.fields, "repNationNm", r.value.repNationNm) &&
      FieldDecodesTo(item.fields, "genreAlt", r.value.genreNm)
    ensures r.Failure? ==> r.error == Unchecked
  {
    match item
    case JObject(m) =>
      var movieCd :- StringField(m, "movieCd");
      var movieNm :- StringField(m, "movieNm");
      var openDt :- StringField(m, "openDt");
      var repNationNm :- StringField(m, "repNationNm");
      var genreAlt :- StringField(m, "genreAlt");
      Success(Movie(movieCd, movieNm, openDt, repNationNm, genreAlt))
    case _ => Failure(Unchecked)
  }

  /** The daily box-office list in a response body. */
  function DecodeDailyBoxOffice(body: Body): (r: Result<seq<Movie>, Failure>)
    ensures body.None? ==> r == Failure(Business(MovieApiResponseNull))
    ensures body.Some? && ExtractItemList(body.value).Failure? ==>
      r == Failure(ExtractItemList(body.value).error)
    ensures body.Some? && ExtractItemList(body.value).Success? ==>
      var items := ExtractItemList(body.value).value;
      (r.Success? <==> forall i :: 0 <= i < |items| ==> ToDto(items[i]).Success?) &&
      (r.Success? ==>
         |r.value| == |items| &&
         forall i :: 0 <= i < |items| ==> ToDto(items[i]) == Success(r.value[i])) &&
      (r.Failure? ==> r.error == Unchecked)
  {
    match body
    case None => Failure(Business(MovieApiResponseNull))
    case Some(response) =>
      var items :- ExtractItemList(response);
      MapResult(items, ToDto)
  }

  /** `fetchDailyBoxOffice`: the GET for `targetDate`, then decoding. */
  function FetchDailyBoxOffice(g: Gateway, targetDate: string): (r: Result<seq<Movie>, Failure>)
    ensures g.boxOffice(targetDate).TransportError? ==> r == Failure(Unchecked)
    ensures g.boxOffice(targetDate).Reply? ==> r == DecodeDailyBoxOffice(g.boxOffice(targetDate).body)
  {
    var body :- Received(g.boxOffice(targetDate));
    DecodeDailyBoxOffice(body)
  }

  /** `movieInfo.getOrDefault("genres", List.of())`: absent reads as no genres; a
      null or a non-list value throws. */
  function GenreList(info: Object): (r: Result<seq<Json>, Failure>)
    ensures "genres" !in info ==> r == Success([])
    ensures "genres" in info && info["genres"].JArray? ==> r == Success(info["genres"].elems)
    ensures "genres" in info && !info["genres"].JArray? ==> r == Failure(Unchecked)
  {
    match Get(info, "genres")
    case None => Success([])
    case Some(JArray(gs)) => Success(gs)
    case Some(_) => Failure(Unchecked)
  }

  /** `g.getOrDefault("genreNm", "").toString()` for one genre element. */
  function GenreName(genre: Json, render: Json -> string): (r: Result<string, Failure>)
    ensures !genre.JObject? ==> r == Failure(Unchecked)
    ensures genre.JObject? && "genreNm" !in genre.fields ==> r == Success("")
    ensures genre.JObject? && "genreNm" in genre.fields ==>
      match genre.fields["genreNm"]
      case JString(v) => r == Success(v)
      case JNull => r == Failure(Unchecked)
      case other => r == Success(render(other))
  {
    match genre
    case JObject(m) =>
      (match Get(m, "genreNm")
       case None => Success("")
       case Some(JString(v)) => Success(v)
       case Some(JNull) => Failure(Unchecked)
       case Some(other) => Success(render(other)))
    case _ => Failure(Unchecked)
  }

  /** The genre information in a movie detail response body. */
  function DecodeMovieDetail(body: Body, render: Json -> string): (r: Result<MovieInfo, Failure>)
    ensures body.None? ==> r == Failure(Business(MovieApiResponseNull))
    ensures body.Some? && CastToMap(Get(body.value, "movieInfoResult"), MovieApiBodyMalformed).Failure? ==>
      r == Failure(Business(MovieApiBodyMalformed))
    ensures body.Some? && "movieInfoResult" in body.value && body.value["movieInfoResult"].JObject? ==>
      var result := body.value["movieInfoResult"].fields;
      !("movieInfo" in result && result["movieInfo"].JObject?) ==>
        r == Failure(Business(MovieApiBodyMalformed))
    ensures r.Failure? && r.error != Unchecked ==>
      r.error == Business(MovieApiResponseNull) || r.error == Business(MovieApiBodyMalformed)
    ensures (r.Failure? && body.Some? && "movieInfoResult" in body.value &&
             body.value["movieInfoResult"].JObject? &&
             "movieInfo" in body.value["movieInfoResult"].fields &&
             body.value["movieInfoResult"].fields["movieInfo"].JObject?) ==>
      r.error == Unchecked
    ensures r.Success? <==>
      && body.Some? && "movieInfoResult" in body.value && body.value["movieInfoResult"].JObject?
      && var result := body.value["movieInfoResult"].fields;
         && "movieInfo" in result && result["movieInfo"].JObject?
         && var genres := GenreList(result["movieInfo"].fields);
            && genres.Success?
            && forall i :: 0 <= i < |genres.value| ==> GenreName(genres.value[i], render).Success?
    ensures r.Success? ==>
      var result := body.value["movieInfoResult"].fields;
      "movieInfo" in result && result["movieInfo"].JObject? &&
      var genres := GenreList(result["movieInfo"].fields);
      genres.Success? &&
      (forall i :: 0 <= i < |genres.value| ==> GenreName(genres.value[i], render).Success?) &&
      r.value.genre ==
        Strings.Join(seq(|genres.value|, i requires 0 <= i < |genres.value| =>
          GenreName(genres.value[i], render).value), GenreSeparator)
  {
    match body
    case None => Failure(Business(MovieApiResponseNull))
    case Some(response) =>
      var result :- CastToMap(Get(response, "movieInfoResult"), MovieApiBodyMalformed);
      var info :- CastToMap(Get(result, "movieInfo"), MovieApiBodyMalformed);
      var genres :- GenreList(info);
      var names :- MapResult(genres, (g: Json) => GenreName(g, render));
      assert names == seq(|genres|, i requires 0 <= i < |genres| => GenreName(genres[i], render).value);
      Success(MovieInfo(Strings.Join(names, GenreSeparator)))
  }

  /** `fetchMovieDetail`: the GET for `movieCd`, then decoding. */
  function FetchMovieDetail(g: Gateway, movieCd: string): (r: Result<MovieInfo, Failure>)
    ensures g.movieInfo(movieCd).TransportError? ==> r == Failure(Unchecked)
    ensures g.movieInfo(movieCd).Reply? ==> r == DecodeMovieDetail(g.movieInfo(movieCd).body, g.render)
  {
    var body :- Received(g.movieInfo(movieCd));
    DecodeMovieDetail(body, g.render)
  }

  /** A Java string as the provider would send it: null as JSON null. */
  function EncodeField(f: Option<string>): Json {
    match f
    case None => JNull
    case Some(v) => JString(v)
  }

  /** A box-office item carrying exactly the five fields of `m`. */
  function EncodeItem(m: Movie): Json {
    JObject(map[
      "movieCd" := EncodeField(m.movieCd),
      "movieNm" := EncodeField(m.movieNm),
      "openDt" := EncodeField(m.openDt),
      "repNationNm" := EncodeField(m.repNationNm),
      "genreAlt" := EncodeField(m.genreNm)])
  }

  /** A well-formed daily box-office response listing `movies`. */
  function EncodeDailyBoxOffice(movies: seq<Movie>): Object {
    map["boxOfficeResult" := JObject(map[
      "dailyBoxOfficeList" := JArray(seq(|movies|, i requires 0 <= i < |movies| => EncodeItem(movies[i])))])]
  }

  /** An encoded movie record decodes back to itself. */
  lemma ItemRoundTrip(m: Movie)
    ensures ToDto(EncodeItem(m)) == Success(m)
  {
    var fields := EncodeItem(m).fields;
    assert StringField(fields, "movieCd") == Success(m.movieCd);
    assert StringField(fields, "movieNm") == Success(m.movieNm);
    assert StringField(fields, "openDt") == Success(m.openDt);
    assert StringField(fields, "repNationNm") == Success(m.repNationNm);
    assert StringField(fields, "genreAlt") == Success(m.genreNm);
  }

  /** Decoding a well-formed response gives back the listed movies, in order. */
  lemma DailyBoxOfficeRoundTrip(movies: seq<Movie>)
    ensures DecodeDailyBoxOffice(Some(EncodeDailyBoxOffice(movies))) == Success(movies)
  {
    var items := seq(|movies|, i requires 0 <= i < |movies| => EncodeItem(movies[i]));
    assert ExtractItemList(EncodeDailyBoxOffice(movies)) == Success(items);
    forall i | 0 <= i < |items| ensures ToDto(items[i]) == Success(movies[i]) {
      ItemRoundTrip(movies[i]);
    }
    var r := DecodeDailyBoxOffice(Some(EncodeDailyBoxOffice(movies)));
    assert r.Success?;
    assert r.value == movies;
  }

  /** A well-formed detail response whose genres are named `names`. */
  function EncodeMovieDetail(names: seq<string>): Object {
    map["movieInfoResult" := JObject(map[
      "movieInfo" := JObject(map[
        "genres" := JArray(seq(|names|, i requires 0 <= i < |names| =>
          JObject(map["genreNm" := JString(names[i])])))])])]
  }

  /** Decoding a well-formed detail response joins its genre names with ", ". */
  lemma MovieDetailRoundTrip(names: seq<string>, render: Json -> string)
    ensures DecodeMovieDetail(Some(EncodeMovieDetail(names)), render) ==
      Success(MovieInfo(Strings.Join(names, GenreSeparator)))
  {
    var genres := seq(|names|, i requires 0 <= i < |names| => JObject(map["genreNm" := JString(names[i])]));
    var info := map["genres" := JArray(genres)];
    assert GenreList(info) == Success(genres);
    forall i | 0 <= i < |genres| ensures GenreName(genres[i], render) == Success(names[i]) {
    }
    var parts := seq(|genres|, i requires 0 <= i < |genres| => GenreName(genres[i], render).value);
    assert parts == names;
  }

  /** A detail record whose `movieInfo` has no `genres` decodes to the empty genre. */
  lemma MissingGenresDecodeEmpty(info: Object, render: Json -> string)
    requires "genres" !in info
    ensures DecodeMovieDetail(Some(map["movieInfoResult" := JObject(map["movieInfo" := JObject(info)])]), render) ==
      Success(MovieInfo(""))
  {
    assert GenreList(info) == Success([]);
  }

  /** Every string genre name of a decoded detail record appears in its genre string. */
  lemma DetailGenreContainsEachName(body: Body, render: Json -> string, i: int)
    requires DecodeMovieDetail(body, render).Success?
    requires var genres := GenreList(body.value["movieInfoResult"].fields["movieInfo"].fields).value;
      0 <= i < |genres| && genres[i].JObject? && "genreNm" in genres[i].fields &&
      genres[i].fields["genreNm"].JString?
    ensures var genres := GenreList(body.value["movieInfoResult"].fields["movieInfo"].fields).value;
      Strings.Contains(DecodeMovieDetail(body, render).value.genre, genres[i].fields["genreNm"].str)
  {
    var genres := GenreList(body.value["movieInfoResult"].fields["movieInfo"].fields).value;
    var parts := seq(|genres|, k requires 0 <= k < |genres| => GenreName(genres[k], render).value);
    Strings.JoinContainsParts(parts, GenreSeparator, i);
  }

  /** Genres "Drama" and "Action" decode to the genre string "Drama, Action"; no
      genres decode to "". */
  lemma GenreJoinExample(render: Json -> string)
    ensures DecodeMovieDetail(Some(EncodeMovieDetail(["Drama", "Action"])), render) ==
      Success(MovieInfo("Drama, Action"))
    ensures DecodeMovieDetail(Some(EncodeMovieDetail([])), render) == Success(MovieInfo(""))
  {
    MovieDetailRoundTrip(["Drama", "Action"], render);
    MovieDetailRoundTrip([], render);
    assert ["Drama", "Action"][1..] == ["Action"];
    assert Strings.Join(["Drama", "Action"], ", ") == "Drama, Action";
  }
}

=== FILE: movie_service.dfy ===
/** The movie pipeline: the daily box-office list with each entry's genre filled
    in from its detail record, and the up-to-three movies whose titles mention a
    tag recommended for a post. */
module MovieService {
  import opened Wrappers
  import opened Errors
  import opened MovieDto
  import opened Strings
  import PostStore
  import Client = MovieSearchClient

  /** At most this many movies are recommended. */
  const RecommendationLimit := 3

  /** The entry has a movie code to look its detail up by: not null, not empty. */
  predicate HasCode(m: Movie) {
    m.movieCd.Some? && m.movieCd.value != ""
  }

  /** The five fields of `m`, with the genre taken from `info`. */
  function WithGenre(m: Movie, info: MovieInfo): Movie {
    Movie(m.movieCd, m.movieNm, m.openDt, m.repNationNm, Some(info.genre))
  }

  /** The per-entry step of enrichment. A business failure of the lookup keeps the
      entry as it was; any other exception escapes. */
  function EnrichOne(m: Movie, detail: string -> Result<MovieInfo, Failure>): (r: Result<Movie, Failure>)
    ensures r.Failure? <==> HasCode(m) && detail(m.movieCd.value).Failure? && !detail(m.movieCd.value).error.Business?
    ensures r.Failure? ==> r.error == Unchecked
    ensures r.Success? ==>
      r.value.movieCd == m.movieCd && r.value.movieNm == m.movieNm &&
      r.value.openDt == m.openDt && r.value.repNationNm == m.repNationNm
    ensures HasCode(m) && detail(m.movieCd.value).Success? ==>
      r == Success(WithGenre(m, detail(m.movieCd.value).value))
    ensures r.Success? && r.value.genreNm != m.genreNm ==>
      HasCode(m) && detail(m.movieCd.value).Success? && r.value.genreNm == Some(detail(m.movieCd.value).value.genre)
  {
    if !HasCode(m) then Success(m)
    else
      match detail(m.movieCd.value)
      case Success(info) => Success(WithGenre(m, info))
      case Failure(Business(_)) => Success(m)
      case Failure(Unchecked) => Failure(Unchecked)
  }

  /** The lookup of entry `m` throws something other than a business exception. */
  predicate LookupEscapes(m: Movie, detail: string -> Result<MovieInfo, Failure>) {
    HasCode(m) && detail(m.movieCd.value) == Failure(Unchecked)
  }

  /** Genre enrichment with per-entry fault tolerance: one entry out per entry in,
      in order; an entry without a code, or whose lookup fails with a business
      error, comes out unchanged; any other entry takes its genre from its detail
      record and keeps its other fields. */
  function Enrich(movies: seq<Movie>, detail: string -> Result<MovieInfo, Failure>): (r: Result<seq<Movie>, Failure>)
    ensures r.Success? <==> forall i :: 0 <= i < |movies| ==> !LookupEscapes(movies[i], detail)
    ensures r.Failure? ==> r.error == Unchecked
    ensures r.Success? ==> |r.value| == |movies|
    ensures r.Success? ==> forall i :: 0 <= i < |movies| ==> !HasCode(movies[i]) ==> r.value[i] == movies[i]
    ensures r.Success? ==> forall i :: 0 <= i < |movies| ==>
      HasCode(movies[i]) && detail(movies[i].movieCd.value).Failure? ==> r.value[i] == movies[i]
    ensures r.Success? ==> forall i :: 0 <= i < |movies| ==>
      HasCode(movies[i]) && detail(movies[i].movieCd.value).Success? ==>
        var m := movies[i];
        var info := detail(m.movieCd.value).value;
        r.value[i].movieCd == m.movieCd && r.value[i].movieNm == m.movieNm &&
        r.value[i].openDt == m.openDt && r.value[i].repNationNm == m.repNationNm &&
        r.value[i].genreNm == Some(info.genre)
  {
    var f := (m: Movie) => EnrichOne(m, detail);
    assert forall i :: 0 <= i < |movies| ==> f(movies[i]) == EnrichOne(movies[i], detail);
    MapResult(movies, f)
  }

  /** Enrichment asks only about the codes of entries that have one: two detail
      services that agree on those codes give the same result. */
  lemma EnrichLooksUpOnlyCodes(movies: seq<Movie>, d1: string -> Result<MovieInfo, Failure>,
                               d2: string -> Result<MovieInfo, Failure>)
    requires forall i :: 0 <= i < |movies| && HasCode(movies[i]) ==> d1(movies[i].movieCd.value) == d2(movies[i].movieCd.value)
    ensures Enrich(movies, d1) == Enrich(movies, d2)
  {
    var f1 := (m: Movie) => EnrichOne(m, d1);
    var f2 := (m: Movie) => EnrichOne(m, d2);
    MapResultAgrees(movies, f1, f2);
  }

  /** One entry's lookup outcome affects only that entry: changing the detail
      service at a single code leaves every entry with another code as it was. */
  lemma EnrichIsolatesEntries(movies: seq<Movie>, d1: string -> Result<MovieInfo, Failure>,
                              d2: string -> Result<MovieInfo, Failure>, code: string, i: int)
    requires forall c :: c != code ==> d1(c) == d2(c)
    requires Enrich(movies, d1).Success? && Enrich(movies, d2).Success?
    requires 0 <= i < |movies| && movies[i].movieCd != Some(code)
    ensures Enrich(movies, d1).value[i] == Enrich(movies, d2).value[i]
  {
  }

  /** A transport error on the detail request of any entry that has a code escapes
      the per-entry handler and aborts the whole list. */
  lemma DetailTransportErrorAborts(g: Client.Gateway, movies: seq<Movie>, i: int)
    requires 0 <= i < |movies| && HasCode(movies[i])
    requires g.movieInfo(movies[i].movieCd.value).TransportError?
    ensures Enrich(movies, (c: string) => Client.FetchMovieDetail(g, c)) == Failure(Unchecked)
  {
    var detail := (c: string) => Client.FetchMovieDetail(g, c);
    assert LookupEscapes(movies[i], detail);
  }

  /** `fetchAllDailyBoxOfficeMoviesWithGenres` for the given target date (the
      source uses yesterday's date): the daily list, enriched. */
  function FetchAllWithGenres(g: Client.Gateway, targetDate: string): (r: Result<seq<Movie>, Failure>)
    ensures Client.FetchDailyBoxOffice(g, targetDate).Failure? ==>
      r == Failure(Client.FetchDailyBoxOffice(g, targetDate).error)
    ensures Client.FetchDailyBoxOffice(g, targetDate).Success? ==>
      r == Enrich(Client.FetchDailyBoxOffice(g, targetDate).value, (c: string) => Client.FetchMovieDetail(g, c))
  {
    var movies :- Client.FetchDailyBoxOffice(g, targetDate);
    Enrich(movies, (c: string) => Client.FetchMovieDetail(g, c))
  }

  /** The title used for matching: a null title reads as "". */
  function Title(m: Movie): string {
    m.movieNm.GetOr("")
  }

  /** Some tag occurs in the movie's title. */
  predicate TitleMatches(m: Movie, tags: seq<string>) {
    exists j :: 0 <= j < |tags| && Contains(Title(m), tags[j])
  }

  /** `a` is `b` with some entries left out, the rest in their order. */
  ghost predicate IsSubsequence<T>(a: seq<T>, b: seq<T>)
    decreases |b|
  {
    if |a| == 0 then true
    else if |b| == 0 then false
    else if a[0] == b[0] then IsSubsequence(a[1..], b[1..])
    else IsSubsequence(a, b[1..])
  }

  /** How many entries of the list (counting repeats) have a matching title. */
  function CountMatching(movies: seq<Movie>, tags: seq<string>): nat
    decreases |movies|
  {
    if |movies| == 0 then 0
    else (if TitleMatches(movies[0], tags) then 1 else 0) + CountMatching(movies[1..], tags)
  }

  /** Every movie whose title matches a tag, in list order. */
  function Matching(movies: seq<Movie>, tags: seq<string>): (r: seq<Movie>)
    ensures forall k :: 0 <= k < |r| ==> TitleMatches(r[k], tags)
    ensures forall m :: m in movies && TitleMatches(m, tags) ==> m in r
    ensures IsSubsequence(r, movies)
    ensures |r| == CountMatching(movies, tags)
    decreases |movies|
  {
    if |movies| == 0 then []
    else
      var rest := Matching(movies[1..], tags);
      if TitleMatches(movies[0], tags) then
        assert ([movies[0]] + rest)[1..] == rest;
        [movies[0]] + rest
      else
        rest
  }

  /** A prefix of a subsequence is a subsequence. */
  lemma {:induction false} PrefixOfSubsequence<T>(a: seq<T>, b: seq<T>, n: nat)
    requires IsSubsequence(a, b) && n <= |a|
    ensures IsSubsequence(a[..n], b)
    decreases |b|
  {
    if n > 0 && |b| > 0 {
      if a[0] == b[0] {
        PrefixOfSubsequence(a[1..], b[1..], n - 1);
        assert a[..n][1..] == a[1..][..n - 1];
      } else {
        PrefixOfSubsequence(a, b[1..], n);
      }
    }
  }

  /** `filterMoviesByMovieName`: the first at most three movies, in list order,
      whose title contains at least one tag. */
  function FilterMoviesByMovieName(movies: seq<Movie>, tags: seq<string>): (r: seq<Movie>)
    ensures |r| <= RecommendationLimit
    ensures forall k :: 0 <= k < |r| ==> TitleMatches(r[k], tags)
    ensures IsSubsequence(r, movies)
    ensures |r| == |Matching(movies, tags)| || |r| == RecommendationLimit < |Matching(movies, tags)|
    ensures r == Matching(movies, tags)[..|r|]
    ensures |r| < RecommendationLimit ==> forall m :: m in movies && TitleMatches(m, tags) ==> m in r
    ensures |r| == 0 <==> forall m :: m in movies ==> !TitleMatches(m, tags)
  {
    var all := Matching(movies, tags);
    var n := if |all| < RecommendationLimit then |all| else RecommendationLimit;
    PrefixOfSubsequence(all, movies, n);
    assert all[..n] == all[..n][..n];
    assert n < RecommendationLimit ==> all[..n] == all;
    assert |all| > 0 ==> all[0] in movies by {
      if |all| > 0 { SubsequenceMembers(all, movies, 0); }
    }
    all[..n]
  }

  /** Each entry of a subsequence is an entry of the whole. */
  lemma {:induction false} SubsequenceMembers<T>(a: seq<T>, b: seq<T>, k: int)
    requires IsSubsequence(a, b) && 0 <= k < |a|
    ensures a[k] in b
    decreases |b|
  {
    if a[0] == b[0] {
      if k > 0 {
        SubsequenceMembers(a[1..], b[1..], k - 1);
      }
    } else {
      SubsequenceMembers(a, b[1..], k);
    }
  }

  /** `recommendMoviesByPostId`: the post must exist; its contents must yield at
      least one recommended tag, which is checked before any box-office request;
      the enriched daily list is filtered by the tags, and an empty result is an
      error. */
  function RecommendMoviesByPostId(s: PostStore.Store, postId: PostStore.PostId,
                                   recommend: string -> seq<string>, g: Client.Gateway,
                                   targetDate: string): (r: Result<seq<Movie>, Failure>)
    ensures postId !in s.posts ==> r == Failure(Business(PostNotFound))
    ensures postId in s.posts && |recommend(s.posts[postId].contents)| == 0 ==>
      r == Failure(Business(TagRecommendationEmpty))
    ensures postId in s.posts && |recommend(s.posts[postId].contents)| > 0 ==>
      var tags := recommend(s.posts[postId].contents);
      var all := FetchAllWithGenres(g, targetDate);
      && (all.Failure? ==> r == Failure(all.error))
      && (all.Success? && (forall m :: m in all.value ==> !TitleMatches(m, tags)) ==>
            r == Failure(Business(MovieApiNoResult)))
      && (all.Success? && (exists m :: m in all.value && TitleMatches(m, tags)) ==>
            r == Success(FilterMoviesByMovieName(all.value, tags)))
      && (r.Success? ==>
            all.Success? && 0 < |r.value| <= RecommendationLimit &&
            r.value == FilterMoviesByMovieName(all.value, tags))
  {
    if postId !in s.posts then Failure(Business(PostNotFound))
    else
      var tags := recommend(s.posts[postId].contents);
      if |tags| == 0 then Failure(Business(TagRecommendationEmpty))
      else
        var all :- FetchAllWithGenres(g, targetDate);
        var filtered := FilterMoviesByMovieName(all, tags);
        if |filtered| == 0 then Failure(Business(MovieApiNoResult))
        else Success(filtered)
  }

  /** Every recommended movie is an entry of the enriched daily list whose title
      contains one of the tags recommended for the post. */
  lemma RecommendedMoviesMatch(s: PostStore.Store, postId: PostStore.PostId,
                               recommend: string -> seq<string>, g: Client.Gateway,
                               targetDate: string)
    ensures var r := RecommendMoviesByPostId(s, postId, recommend, g, targetDate);
      r.Success? ==>
        && postId in s.posts && FetchAllWithGenres(g, targetDate).Success?
        && var tags := recommend(s.posts[postId].contents);
           forall k :: 0 <= k < |r.value| ==>
             r.value[k] in FetchAllWithGenres(g, targetDate).value &&
             exists j :: 0 <= j < |tags| && Contains(Title(r.value[k]), tags[j])
  {
    var r := RecommendMoviesByPostId(s, postId, recommend, g, targetDate);
    if r.Success? {
      var all := FetchAllWithGenres(g, targetDate).value;
      var tags := recommend(s.posts[postId].contents);
      assert r.value == FilterMoviesByMovieName(all, tags);
      forall k | 0 <= k < |r.value| ensures r.value[k] in all {
        SubsequenceMembers(r.value, all, k);
      }
    }
  }

  /** A movie known only by its title. */
  function Titled(name: string): Movie {
    Movie(Some(""), Some(name), Some(""), Some(""), Some(""))
  }

  /** Tags "Parasite" and "Action" over three titles keep the first and the third. */
  lemma FilterExample()
    ensures FilterMoviesByMovieName([Titled("Parasite 2"), Titled("Romance Tale"), Titled("Action Hero")],
                                    ["Parasite", "Action"]) == [Titled("Parasite 2"), Titled("Action Hero")]
  {
    var tags := ["Parasite", "Action"];
    NoTagInRomanceTale("Romance Tale", tags);
    FilterOfThreeTitles("Parasite 2", "Romance Tale", "Action Hero", tags);
  }

  /** Three titles of which the first starts with the first tag, the third with the
      second, and the middle one contains no tag: the filter keeps the first and the third. */
  lemma FilterOfThreeTitles(x: string, y: string, z: string, tags: seq<string>)
    requires |tags| == 2 && tags[0] <= x && tags[1] <= z
    requires forall j :: 0 <= j < |tags| ==> !Contains(y, tags[j])
    ensures FilterMoviesByMovieName([Titled(x), Titled(y), Titled(z)], tags) == [Titled(x), Titled(z)]
  {
    PrefixMatches(Title(Titled(x)), tags, 0);
    PrefixMatches(Title(Titled(z)), tags, 1);
    MatchingOfThree(Titled(x), Titled(y), Titled(z), tags);
  }

  /** A title that starts with a tag matches. */
  lemma PrefixMatches(title: string, tags: seq<string>, j: int)
    requires 0 <= j < |tags| && tags[j] <= title
    ensures exists k :: 0 <= k < |tags| && Contains(title, tags[k])
  {
    assert Contains(title, tags[j]);
  }

  /** Neither example tag occurs in "Romance Tale". */
  lemma NoTagInRomanceTale(title: string, tags: seq<string>)
    requires title == "Romance Tale" && tags == ["Parasite", "Action"]
    ensures forall j :: 0 <= j < |tags| ==> !Contains(title, tags[j])
  {
    FirstCharAbsent(title, tags[0]);
    FirstCharAbsent(title, tags[1]);
  }

  /** Of three movies of which only the middle one does not match, the filter keeps the other two. */
  lemma MatchingOfThree(p: Movie, q: Movie, a: Movie, tags: seq<string>)
    requires TitleMatches(p, tags) && !TitleMatches(q, tags) && TitleMatches(a, tags)
    ensures FilterMoviesByMovieName([p, q, a], tags) == [p, a]
  {
    assert Matching([a], tags) == [a] by { assert [a][1..] == []; }
    assert Matching([q, a], tags) == [a] by { assert [q, a][1..] == [a]; }
    assert [p, q, a][1..] == [q, a];
    assert Matching([p, q, a], tags) == [p, a];
  }
}

=== FILE: post_service.dfy ===
/** The post service's state rules: saving, updating and deleting a post, removing
    its image, and linking it to the recommended tags. Each operation is a
    transition from one store to the next; a failure leaves the store as it was
    (the operations are transactional). */
module PostService {
  import opened Wrappers
  import opened Errors
  import opened PostStore
  import S3 = S3Uploader

  /** The object-store directory post images are uploaded to. */
  const ImageDir := "post-images"

  datatype SaveRequest = SaveRequest(memberId: MemberId, title: string, contents: string)
  datatype UpdateRequest = UpdateRequest(title: string, contents: string)

  /** The collaborators a transition consults: the UUID the next upload draws, the
      store's URL for a key, the tag recommender, and the entity's own `update`,
      which yields the post's new title and contents. */
  datatype Env = Env(
    uuid: string,
    urlOf: string -> string,
    recommend: string -> seq<string>,
    revise: (Post, UpdateRequest) -> (string, string))

  /** A post saved under `postId`. */
  datatype Saved = Saved(store: Store, postId: PostId)

  /** A URL that is neither null nor empty. */
  predicate NonEmpty(url: Option<string>) {
    url.Some? && url.value != ""
  }

  /** The key the upload of `file` is stored under. */
  function ImageKey(env: Env, file: S3.MultipartFile): string {
    S3.UploadKey(ImageDir, env.uuid, file.originalFilename)
  }

  /** Uploads the image when one with content is given. */
  function UploadImage(env: Env, file: Option<S3.MultipartFile>): (r: Result<Option<S3.Uploaded>, Failure>)
    ensures !S3.HasContent(file) ==> r == Success(None)
    ensures S3.HasContent(file) && !file.value.readable ==> r == Failure(Business(S3UploadFail))
    ensures S3.HasContent(file) && file.value.readable ==>
      r == Success(Some(S3.Uploaded(ImageKey(env, file.value), env.urlOf(ImageKey(env, file.value)))))
  {
    if S3.HasContent(file) then
      var up :- S3.Upload(file.value, ImageDir, env.uuid, env.urlOf);
      Success(Some(up))
    else Success(None)
  }

  /** The log entry of an upload, if one happened. */
  function UploadLog(image: Option<S3.Uploaded>): seq<Effect> {
    match image
    case None => []
    case Some(up) => [Uploaded(up.key)]
  }

  /** One step of `registerTagsToPost`: find the tag named `name` or create it,
      then link it to post `p`. */
  function LinkTag(s: Store, p: PostId, name: string): (r: Store)
    ensures r == s.(tags := r.tags, postTags := r.postTags)
    ensures name in s.tags ==> r.tags == s.tags
    ensures name !in s.tags ==> r.tags == s.tags + [name]
    ensures |r.postTags| == |s.postTags| + 1 && r.postTags[..|s.postTags|] == s.postTags
    ensures var l := r.postTags[|s.postTags|]; l.post == p && l.tag < |r.tags| && r.tags[l.tag] == name
  {
    match FindTagByName(s.tags, name)
    case Some(id) => s.(postTags := s.postTags + [PostTag(p, id)])
    case None => s.(tags := s.tags + [name], postTags := s.postTags + [PostTag(p, |s.tags|)])
  }

  /** Appending one link adds its tag's name to its post and to no other. */
  lemma TagNamesOfSnoc(tags: seq<string>, links: seq<PostTag>, l: PostTag, q: PostId)
    requires LinksInRange(tags, links) && l.tag < |tags|
    ensures LinksInRange(tags, links + [l])
    ensures TagNamesOf(tags, links + [l], q) ==
      TagNamesOf(tags, links, q) + (if l.post == q then [tags[l.tag]] else [])
  {
    assert (links + [l])[..|links|] == links;
  }

  /** `LinkTag` keeps the tag names unique and gives post `p` one more tag, named `name`. */
  lemma LinkTagNames(s: Store, p: PostId, name: string)
    requires LinksInRange(s.tags, s.postTags)
    ensures UniqueNames(s.tags) ==> UniqueNames(LinkTag(s, p, name).tags)
    ensures var r := LinkTag(s, p, name);
      LinksInRange(r.tags, r.postTags) &&
      (forall q :: TagNamesOf(r.tags, r.postTags, q) ==
        TagNamesOf(s.tags, s.postTags, q) + (if q == p then [name] else []))
  {
    var r := LinkTag(s, p, name);
    var l := r.postTags[|s.postTags|];
    assert r.postTags == s.postTags + [l];
    var extra := r.tags[|s.tags|..];
    assert r.tags == s.tags + extra;
    forall q ensures LinksInRange(r.tags, r.postTags) &&
      TagNamesOf(r.tags, r.postTags, q) == TagNamesOf(s.tags, s.postTags, q) + (if q == p then [name] else [])
    {
      TagNamesOfGrow(s.tags, extra, s.postTags, q);
      TagNamesOfSnoc(r.tags, s.postTags, l, q);
    }
  }

  /** `registerTagsToPost`: one link per recommended name, in list order, each to
      the existing tag of that name or to a new one when none exists. Only tags and
      links change; both only grow at the end. */
  function RegisterTagsToPost(s: Store, p: PostId, names: seq<string>): (r: Store)
    ensures r == s.(tags := r.tags, postTags := r.postTags)
    ensures |r.tags| >= |s.tags| && r.tags[..|s.tags|] == s.tags
    ensures |r.postTags| == |s.postTags| + |names| && r.postTags[..|s.postTags|] == s.postTags
    decreases |names|
  {
    if |names| == 0 then s
    else
      var s1 := LinkTag(s, p, names[0]);
      var r := RegisterTagsToPost(s1, p, names[1..]);
      assert r.tags[..|s1.tags|][..|s.tags|] == r.tags[..|s.tags|];
      assert r.postTags[..|s1.postTags|][..|s.postTags|] == r.postTags[..|s.postTags|];
      r
  }

  /** After `registerTagsToPost`, post `p`'s tags are its former tags followed by
      exactly the given names, in order; every other post keeps its tags. */
  lemma {:induction false} RegisterTagsNames(s: Store, p: PostId, names: seq<string>)
    requires LinksInRange(s.tags, s.postTags)
    ensures var r := RegisterTagsToPost(s, p, names);
      LinksInRange(r.tags, r.postTags) &&
      forall q :: TagNamesOf(r.tags, r.postTags, q) ==
        TagNamesOf(s.tags, s.postTags, q) + (if q == p then names else [])
    decreases |names|
  {
    if |names| > 0 {
      var s1 := LinkTag(s, p, names[0]);
      LinkTagNames(s, p, names[0]);
      RegisterTagsNames(s1, p, names[1..]);
      assert names == [names[0]] + names[1..];
    }
  }

  /** Find-or-create keeps tag names unique; it creates tags only for given names,
      and afterwards every given name has a tag. */
  lemma {:induction false} RegisterTagsUnique(s: Store, p: PostId, names: seq<string>)
    requires LinksInRange(s.tags, s.postTags)
    ensures var r := RegisterTagsToPost(s, p, names);
      && (UniqueNames(s.tags) ==> UniqueNames(r.tags))
      && (forall k :: |s.tags| <= k < |r.tags| ==> r.tags[k] in names)
      && (forall n :: n in names ==> n in r.tags)
    decreases |names|
  {
    if |names| > 0 {
      var s1 := LinkTag(s, p, names[0]);
      LinkTagNames(s, p, names[0]);
      RegisterTagsUnique(s1, p, names[1..]);
      var r := RegisterTagsToPost(s, p, names);
      assert r == RegisterTagsToPost(s1, p, names[1..]);
      forall k | |s.tags| <= k < |r.tags| ensures r.tags[k] in names {
        if k < |s1.tags| {
          assert r.tags[k] == r.tags[..|s1.tags|][k] == s1.tags[k];
          assert s1.tags == s.tags + [names[0]];
        } else {
          assert r.tags[k] in names[1..];
        }
      }
      assert names[0] in s1.tags;
      assert names[0] in r.tags by {
        var i :| 0 <= i < |s1.tags| && s1.tags[i] == names[0];
        assert r.tags[..|s1.tags|][i] == r.tags[i];
      }
    }
  }

  /** The links `registerTagsToPost` adds all belong to post `p`. */
  lemma {:induction false} RegisterTagsOwner(s: Store, p: PostId, names: seq<string>)
    ensures var r := RegisterTagsToPost(s, p, names);
      forall k :: |s.postTags| <= k < |r.postTags| ==> r.postTags[k].post == p
    decreases |names|
  {
    if |names| > 0 {
      var s1 := LinkTag(s, p, names[0]);
      RegisterTagsOwner(s1, p, names[1..]);
      var r := RegisterTagsToPost(s, p, names);
      assert r == RegisterTagsToPost(s1, p, names[1..]);
      forall k | |s.postTags| <= k < |r.postTags| ensures r.postTags[k].post == p {
        if k < |s1.postTags| {
          assert r.postTags[k] == r.postTags[..|s1.postTags|][k] == s1.postTags[k];
          assert k == |s.postTags|;
        }
      }
    }
  }

  /** Linking tags to an existing post keeps the store valid. */
  lemma RegisterTagsValid(s: Store, p: PostId, names: seq<string>)
    requires Valid(s) && p in s.posts
    ensures Valid(RegisterTagsToPost(s, p, names))
  {
    var t := RegisterTagsToPost(s, p, names);
    RegisterTagsNames(s, p, names);
    RegisterTagsUnique(s, p, names);
    RegisterTagsOwner(s, p, names);
    forall k | 0 <= k < |t.postTags| ensures t.postTags[k].post in t.posts {
      if k < |s.postTags| {
        assert t.postTags[k] == t.postTags[..|s.postTags|][k] == s.postTags[k];
      }
    }
  }

  /** `registerTagsToPost` for an existing post, with what the transitions rely
      on: the invariant holds, only tags and links change, the tag store keeps its
      tags and gains only given names, and the post's tags grow by exactly the
      names while other posts keep theirs. */
  function LinkRecommended(s: Store, p: PostId, names: seq<string>): (t: Store)
    requires Valid(s) && p in s.posts
    ensures Valid(t)
    ensures t.posts == s.posts && t.members == s.members && t.nextPostId == s.nextPostId && t.log == s.log
    ensures |s.tags| <= |t.tags| && t.tags[..|s.tags|] == s.tags
    ensures forall k :: |s.tags| <= k < |t.tags| ==> t.tags[k] in names
    ensures TagNamesOf(t.tags, t.postTags, p) == TagNamesOf(s.tags, s.postTags, p) + names
    ensures forall q :: q != p ==> TagNamesOf(t.tags, t.postTags, q) == TagNamesOf(s.tags, s.postTags, q)
  {
    RegisterTagsNames(s, p, names);
    RegisterTagsValid(s, p, names);
    RegisterTagsUnique(s, p, names);
    RegisterTagsToPost(s, p, names)
  }

  /** `postSave`: the author must be a member; the image, when given with content,
      is uploaded first; then the post is stored and linked to the tags recommended
      for its contents. */
  function PostSave(s: Store, env: Env, req: SaveRequest, imageFile: Option<S3.MultipartFile>): (r: Result<Saved, Failure>)
    requires Valid(s)
    ensures req.memberId !in s.members <==> r == Failure(Business(MemberNotFound))
    ensures req.memberId in s.members ==>
      (r == Failure(Business(S3UploadFail)) <==> S3.HasContent(imageFile) && !imageFile.value.readable)
    ensures r.Success? <==> req.memberId in s.members && !(S3.HasContent(imageFile) && !imageFile.value.readable)
    ensures r.Success? ==>
      var t := r.value.store;
      var id := r.value.postId;
      && Valid(t)
      && t.members == s.members
      && id == s.nextPostId && t.nextPostId == s.nextPostId + 1
      && id !in s.posts
      && t.posts.Keys == s.posts.Keys + {id}
      && (forall q :: q in s.posts ==> t.posts[q] == s.posts[q])
      && t.posts[id].title == req.title
      && t.posts[id].contents == req.contents
      && t.posts[id].member == req.memberId
      && t.posts[id].imageUrl ==
           (if S3.HasContent(imageFile) then Some(env.urlOf(ImageKey(env, imageFile.value))) else None)
      && |s.tags| <= |t.tags| && t.tags[..|s.tags|] == s.tags
      && (forall k :: |s.tags| <= k < |t.tags| ==> t.tags[k] in env.recommend(req.contents))
      && TagNamesOf(t.tags, t.postTags, id) == env.recommend(req.contents)
      && (forall q :: q != id ==> TagNamesOf(t.tags, t.postTags, q) == TagNamesOf(s.tags, s.postTags, q))
      && t.log == s.log +
           (if S3.HasContent(imageFile) then [Uploaded(ImageKey(env, imageFile.value))] else []) +
           [TagsRequested(req.contents)]
  {
    if req.memberId !in s.members then Failure(Business(MemberNotFound))
    else
      var image :- UploadImage(env, imageFile);
      var id := s.nextPostId;
      var post := Post(req.title, req.contents, if image.Some? then Some(image.value.url) else None, req.memberId);
      var s1 := s.(posts := s.posts[id := post], nextPostId := id + 1,
                   log := s.log + UploadLog(image) + [TagsRequested(post.contents)]);
      TagNamesOfUnlinked(s.tags, s.postTags, id);
      var t := LinkRecommended(s1, id, env.recommend(post.contents));
      Success(Saved(t, id))
  }

  /** The post as `postUpdate` and `removePostImage` leave it after the image step:
      the entity's `update` applied over the new image URL. */
  function Revised(env: Env, post: Post, imageUrl: Option<string>, req: UpdateRequest): (p: Post) {
    var text := env.revise(post.(imageUrl := imageUrl), req);
    post.(imageUrl := imageUrl, title := text.0, contents := text.1)
  }

  /** The common tail of `postUpdate` and `removePostImage`: store the revised
      post, drop all of its links, ask for tags for its new contents, link them. */
  function Retag(s: Store, env: Env, postId: PostId, post: Post, effects: seq<Effect>): (t: Store)
    requires Valid(s) && postId in s.posts && post.member == s.posts[postId].member
    ensures Valid(t)
    ensures t.posts == s.posts[postId := post]
    ensures t.members == s.members && t.nextPostId == s.nextPostId
    ensures |s.tags| <= |t.tags| && t.tags[..|s.tags|] == s.tags
    ensures forall k :: |s.tags| <= k < |t.tags| ==> t.tags[k] in env.recommend(post.contents)
    ensures t.log == s.log + effects + [TagsRequested(post.contents)]
    ensures TagNamesOf(t.tags, t.postTags, postId) == env.recommend(post.contents)
    ensures forall q :: q != postId ==> TagNamesOf(t.tags, t.postTags, q) == TagNamesOf(s.tags, s.postTags, q)
  {
    var kept := RemoveLinksOf(s.postTags, postId);
    forall q ensures LinksInRange(s.tags, kept) &&
      TagNamesOf(s.tags, kept, q) == if q == postId then [] else TagNamesOf(s.tags, s.postTags, q)
    {
      RemoveLinksOfNames(s.tags, s.postTags, postId, q);
    }
    var s1 := s.(posts := s.posts[postId := post], postTags := kept,
                 log := s.log + effects + [TagsRequested(post.contents)]);
    assert Valid(s1);
    LinkRecommended(s1, postId, env.recommend(post.contents))
  }

  /** `postUpdate`: a new image with content is uploaded, replaces the URL and has
      the old non-empty URL deleted; without one the URL stays. Then the text is
      revised and the post's tags are replaced by those recommended for its new
      contents. */
  function PostUpdate(s: Store, env: Env, postId: PostId, req: UpdateRequest, imageFile: Option<S3.MultipartFile>): (r: Result<Store, Failure>)
    requires Valid(s)
    ensures postId !in s.posts <==> r == Failure(Business(PostNotFound))
    ensures postId in s.posts ==>
      (r == Failure(Business(S3UploadFail)) <==> S3.HasContent(imageFile) && !imageFile.value.readable)
    ensures r.Success? <==> postId in s.posts && !(S3.HasContent(imageFile) && !imageFile.value.readable)
    ensures r.Success? ==>
      var t := r.value;
      var prev := s.posts[postId];
      && Valid(t)
      && t.members == s.members && t.nextPostId == s.nextPostId
      && t.posts.Keys == s.posts.Keys
      && (forall q :: q in s.posts && q != postId ==> t.posts[q] == s.posts[q])
      && t.posts[postId].member == prev.member
      && t.posts[postId] == Revised(env, prev, t.posts[postId].imageUrl, req)
      && |s.tags| <= |t.tags| && t.tags[..|s.tags|] == s.tags
      && (forall k :: |s.tags| <= k < |t.tags| ==> t.tags[k] in env.recommend(t.posts[postId].contents))
      && TagNamesOf(t.tags, t.postTags, postId) == env.recommend(t.posts[postId].contents)
      && (forall q :: q != postId ==> TagNamesOf(t.tags, t.postTags, q) == TagNamesOf(s.tags, s.postTags, q))
    ensures r.Success? && !S3.HasContent(imageFile) ==>
      var t := r.value;
      && t.posts[postId].imageUrl == s.posts[postId].imageUrl
      && t.log == s.log + [TagsRequested(t.posts[postId].contents)]
    ensures r.Success? && S3.HasContent(imageFile) ==>
      var t := r.value;
      var oldUrl := s.posts[postId].imageUrl;
      var key := ImageKey(env, imageFile.value);
      && t.posts[postId].imageUrl == Some(env.urlOf(key))
      && t.log == s.log + [Uploaded(key)] + (if NonEmpty(oldUrl) then [DeleteRequested(oldUrl)] else []) +
           [TagsRequested(t.posts[postId].contents)]
  {
    if postId !in s.posts then Failure(Business(PostNotFound))
    else
      var image :- UploadImage(env, imageFile);
      Success(UpdateWithImage(s, env, postId, req, image))
  }

  /** The part of `postUpdate` after the image step: a new upload replaces the URL
      and has a non-empty old URL deleted; then the post is revised and retagged. */
  function UpdateWithImage(s: Store, env: Env, postId: PostId, req: UpdateRequest, image: Option<S3.Uploaded>): (t: Store)
    requires Valid(s) && postId in s.posts
    ensures var prev := s.posts[postId];
      var url := if image.Some? then Some(image.value.url) else prev.imageUrl;
      && Valid(t)
      && t.members == s.members && t.nextPostId == s.nextPostId
      && t.posts == s.posts[postId := Revised(env, prev, url, req)]
      && |s.tags| <= |t.tags| && t.tags[..|s.tags|] == s.tags
      && (forall k :: |s.tags| <= k < |t.tags| ==> t.tags[k] in env.recommend(t.posts[postId].contents))
      && TagNamesOf(t.tags, t.postTags, postId) == env.recommend(t.posts[postId].contents)
      && (forall q :: q != postId ==> TagNamesOf(t.tags, t.postTags, q) == TagNamesOf(s.tags, s.postTags, q))
      && t.log == s.log + UploadLog(image) +
           (if image.Some? && NonEmpty(prev.imageUrl) then [DeleteRequested(prev.imageUrl)] else []) +
           [TagsRequested(t.posts[postId].contents)]
  {
    var prev := s.posts[postId];
    var deletes := if image.Some? && NonEmpty(prev.imageUrl) then [DeleteRequested(prev.imageUrl)] else [];
    var url := if image.Some? then Some(image.value.url) else prev.imageUrl;
    var post := Revised(env, prev, url, req);
    var t := Retag(s, env, postId, post, UploadLog(image) + deletes);
    assert t.posts[postId].contents == post.contents;
    t
  }

  /** `postDelete`: asks for the image to be deleted when the URL is non-empty, then
      removes the post together with its tag links. */
  function PostDelete(s: Store, postId: PostId): (r: Result<Store, Failure>)
    requires Valid(s)
    ensures postId !in s.posts <==> r == Failure(Business(PostNotFound))
    ensures r.Success? <==> postId in s.posts
    ensures r.Success? ==>
      var t := r.value;
      var url := s.posts[postId].imageUrl;
      && Valid(t)
      && t.members == s.members && t.nextPostId == s.nextPostId
      && t.posts == s.posts - {postId}
      && t.tags == s.tags
      && t.log == s.log + (if NonEmpty(url) then [DeleteRequested(url)] else [])
      && (forall k :: 0 <= k < |t.postTags| ==> t.postTags[k].post != postId)
      && (forall q :: q != postId ==> TagNamesOf(t.tags, t.postTags, q) == TagNamesOf(s.tags, s.postTags, q))
  {
    if postId !in s.posts then Failure(Business(PostNotFound))
    else
      var url := s.posts[postId].imageUrl;
      var kept := RemoveLinksOf(s.postTags, postId);
      forall q ensures LinksInRange(s.tags, kept) &&
        TagNamesOf(s.tags, kept, q) == if q == postId then [] else TagNamesOf(s.tags, s.postTags, q)
      {
        RemoveLinksOfNames(s.tags, s.postTags, postId, q);
      }
      Success(s.(posts := s.posts - {postId}, postTags := kept,
                 log := s.log + (if NonEmpty(url) then [DeleteRequested(url)] else [])))
  }

  /** `removePostImage`: always asks for the old URL to be deleted (the object store
      skips a null or empty one) and clears it; the given file is not used. Then the
      text is revised and the tags replaced as in `postUpdate`. */
  function RemovePostImage(s: Store, env: Env, postId: PostId, req: UpdateRequest, imageFile: Option<S3.MultipartFile>): (r: Result<Store, Failure>)
    requires Valid(s)
    ensures postId !in s.posts <==> r.Failure?
    ensures r.Failure? ==> r.error == Business(PostNotFound)
    ensures r.Success? ==>
      var t := r.value;
      var prev := s.posts[postId];
      && Valid(t)
      && t.members == s.members && t.nextPostId == s.nextPostId
      && t.posts.Keys == s.posts.Keys
      && (forall q :: q in s.posts && q != postId ==> t.posts[q] == s.posts[q])
      && t.posts[postId].imageUrl == None
      && t.posts[postId] == Revised(env, prev, None, req)
      && t.log == s.log + [DeleteRequested(prev.imageUrl), TagsRequested(t.posts[postId].contents)]
      && |s.tags| <= |t.tags| && t.tags[..|s.tags|] == s.tags
      && (forall k :: |s.tags| <= k < |t.tags| ==> t.tags[k] in env.recommend(t.posts[postId].contents))
      && TagNamesOf(t.tags, t.postTags, postId) == env.recommend(t.posts[postId].contents)
      && (forall q :: q != postId ==> TagNamesOf(t.tags, t.postTags, q) == TagNamesOf(s.tags, s.postTags, q))
  {
    if postId !in s.posts then Failure(Business(PostNotFound))
    else
      var prev := s.posts[postId];
      var post := Revised(env, prev, None, req);
      Success(Retag(s, env, postId, post, [DeleteRequested(prev.imageUrl)]))
  }
}

=== FILE: post_store.dfy ===
/** The persistent state the post service works on: members, posts, tags and
    post-tag links, plus a log of the outside effects (uploads, delete requests,
    tag-recommendation calls) a transition performs. */
module PostStore {
  import opened Wrappers

  type PostId = nat
  type MemberId = nat
  /** Tags are never removed, so a tag's id is its position in the tag store. */
  type TagId = nat

  datatype Post = Post(title: string, contents: string, imageUrl: Option<string>, member: MemberId)

  /** One post-tag association row. */
  datatype PostTag = PostTag(post: PostId, tag: TagId)

  /** An outside effect, in the order performed: an object stored under `key`, a
      `deleteFile(url)` call, a tag-recommendation request for `contents`. */
  datatype Effect = Uploaded(key: string) | DeleteRequested(url: Option<string>) | TagsRequested(contents: string)

  /** `postTags` keeps the association rows in insertion order. */
  datatype Store = Store(
    members: set<MemberId>,
    posts: map<PostId, Post>,
    tags: seq<string>,
    postTags: seq<PostTag>,
    nextPostId: PostId,
    log: seq<Effect>)

  /** No two tags share a name. */
  predicate UniqueNames(tags: seq<string>) {
    forall i, j :: 0 <= i < j < |tags| ==> tags[i] != tags[j]
  }

  /** Every link names an existing tag. */
  predicate LinksInRange(tags: seq<string>, links: seq<PostTag>) {
    forall k :: 0 <= k < |links| ==> links[k].tag < |tags|
  }

  /** The repository invariant: unique tag names, links between existing posts and
      tags, post ids below the next one to be issued, every author a member. */
  predicate Valid(s: Store) {
    && UniqueNames(s.tags)
    && LinksInRange(s.tags, s.postTags)
    && (forall k :: 0 <= k < |s.postTags| ==> s.postTags[k].post in s.posts)
    && (forall id :: id in s.posts ==> id < s.nextPostId && s.posts[id].member in s.members)
  }

  /** `tagRepository.findByName`: the first tag with this name, if any. */
  function FindTagByName(tags: seq<string>, name: string): (r: Option<TagId>)
    ensures r.Some? ==> r.value < |tags| && tags[r.value] == name
    ensures r.Some? ==> forall j :: 0 <= j < r.value ==> tags[j] != name
    ensures r.None? <==> name !in tags
    decreases |tags|
  {
    if |tags| == 0 then None
    else if tags[0] == name then Some(0)
    else
      match FindTagByName(tags[1..], name)
      case None => None
      case Some(k) => Some(k + 1)
  }

  /** The names of the tags linked to post `p`, in link order. */
  function TagNamesOf(tags: seq<string>, links: seq<PostTag>, p: PostId): seq<string>
    requires LinksInRange(tags, links)
    decreases |links|
  {
    if |links| == 0 then []
    else
      var last := links[|links| - 1];
      TagNamesOf(tags, links[..|links| - 1], p) + (if last.post == p then [tags[last.tag]] else [])
  }

  /** A post no link mentions has no tags. */
  lemma {:induction false} TagNamesOfUnlinked(tags: seq<string>, links: seq<PostTag>, p: PostId)
    requires LinksInRange(tags, links)
    requires forall k :: 0 <= k < |links| ==> links[k].post != p
    ensures TagNamesOf(tags, links, p) == []
    decreases |links|
  {
    if |links| > 0 {
      TagNamesOfUnlinked(tags, links[..|links| - 1], p);
    }
  }

  /** Adding tags to the store does not rename what existing links point at. */
  lemma {:induction false} TagNamesOfGrow(tags: seq<string>, extra: seq<string>, links: seq<PostTag>, p: PostId)
    requires LinksInRange(tags, links)
    ensures LinksInRange(tags + extra, links)
    ensures TagNamesOf(tags + extra, links, p) == TagNamesOf(tags, links, p)
    decreases |links|
  {
    if |links| > 0 {
      TagNamesOfGrow(tags, extra, links[..|links| - 1], p);
    }
  }

  /** `postTagRepository.deleteAllByPost`: every link of post `p` removed, the rest
      kept in order. */
  function RemoveLinksOf(links: seq<PostTag>, p: PostId): (r: seq<PostTag>)
    ensures forall k :: 0 <= k < |r| ==> r[k].post != p
    ensures forall k :: 0 <= k < |r| ==> r[k] in links
    ensures forall l :: l in links && l.post != p ==> l in r
    decreases |links|
  {
    if |links| == 0 then []
    else
      var last := links[|links| - 1];
      RemoveLinksOf(links[..|links| - 1], p) + (if last.post == p then [] else [last])
  }

  /** Removing post `p`'s links leaves it without tags and every other post with
      exactly its tags. */
  lemma {:induction false} RemoveLinksOfNames(tags: seq<string>, links: seq<PostTag>, p: PostId, q: PostId)
    requires LinksInRange(tags, links)
    ensures LinksInRange(tags, RemoveLinksOf(links, p))
    ensures TagNamesOf(tags, RemoveLinksOf(links, p), q) == if q == p then [] else TagNamesOf(tags, links, q)
    decreases |links|
  {
    var r := RemoveLinksOf(links, p);
    assert LinksInRange(tags, r) by {
      forall k | 0 <= k < |r| ensures r[k].tag < |tags| {
        var j :| 0 <= j < |links| && links[j] == r[k];
      }
    }
    if |links| > 0 {
      var init := links[..|links| - 1];
      var last := links[|links| - 1];
      RemoveLinksOfNames(tags, init, p, q);
      var ri := RemoveLinksOf(init, p);
      if last.post != p {
        assert r == ri + [last];
        assert r[..|r| - 1] == ri;
      } else {
        assert r == ri;
      }
    }
  }
}

=== FILE: s3_uploader.dfy ===
/** The object-store wrapper: the key an upload is stored under, and the
    decision of whether and what to delete for an image URL. The storage SDK,
    UUID generation and URI parsing are oracles. */
module S3Uploader {
  import opened Wrappers
  import opened Errors

  /** An uploaded file as the web layer hands it over. `size == 0` is an empty
      file; `readable` is false when opening its input stream throws IOException. */
  datatype MultipartFile = MultipartFile(originalFilename: Option<string>, size: nat, readable: bool)

  /** `file != null && !file.isEmpty()`. */
  predicate HasContent(file: Option<MultipartFile>) {
    file.Some? && file.value.size > 0
  }

  /** Java string concatenation renders a null reference as "null". */
  function Stringify(s: Option<string>): string {
    s.GetOr("null")
  }

  /** The object key of an upload: directory, "/", the random UUID, "_", the
      original file name. */
  function UploadKey(dirName: string, uuid: string, originalFilename: Option<string>): (key: string)
    ensures |key| == |dirName| + 1 + |uuid| + 1 + |Stringify(originalFilename)|
    ensures key[..|dirName| + 1] == dirName + "/"
    ensures key[|key| - |Stringify(originalFilename)| - 1..] == "_" + Stringify(originalFilename)
    ensures key[|dirName| + 1..|dirName| + 1 + |uuid|] == uuid
  {
    dirName + "/" + uuid + "_" + Stringify(originalFilename)
  }

  /** A stored upload: its key and the URL the store reports for it. */
  datatype Uploaded = Uploaded(key: string, url: string)

  /** `upload`: stores the file under its key and returns the store's URL for that
      key; an unreadable file fails with S3_UPLOAD_FAIL. `urlOf` is the store's
      `getUrl`. */
  function Upload(file: MultipartFile, dirName: string, uuid: string, urlOf: string -> string): (r: Result<Uploaded, Failure>)
    ensures !file.readable <==> r == Failure(Business(S3UploadFail))
    ensures r.Success? <==> file.readable
    ensures r.Success? ==> r.value.key == UploadKey(dirName, uuid, file.originalFilename)
    ensures r.Success? ==> r.value.url == urlOf(r.value.key)
  {
    if !file.readable then Failure(Business(S3UploadFail))
    else
      var key := UploadKey(dirName, uuid, file.originalFilename);
      Success(Uploaded(key, urlOf(key)))
  }

  /** What `new URI(url).getPath()` yields: a syntax error, a null path (an opaque
      URI), or the path. */
  datatype UriPath = SyntaxError | NoPath | Path(path: string)

  /** The object key named by a URL path: the path without one leading "/". */
  function KeyFromPath(path: string): (key: string)
    ensures |path| > 0 && path[0] == '/' ==> "/" + key == path
    ensures !(|path| > 0 && path[0] == '/') ==> key == path
  {
    if |path| > 0 && path[0] == '/' then path[1..] else path
  }

  /** `getFileKeyFromUrl` over the parsed URL: a syntax error gives a null key;
      a null path throws when it is tested for a leading "/". */
  function GetFileKeyFromUrl(parsed: UriPath): (r: Result<Option<string>, Failure>)
    ensures parsed.SyntaxError? ==> r == Success(None)
    ensures parsed.NoPath? ==> r == Failure(Unchecked)
    ensures parsed.Path? ==> r.Success? && r.value.Some? && r.value.value == KeyFromPath(parsed.path)
  {
    match parsed
    case SyntaxError => Success(None)
    case NoPath => Failure(Unchecked)
    case Path(p) => Success(Some(KeyFromPath(p)))
  }

  /** How a `deleteFile` call ends. None of these reaches the caller as a failure:
      `Skipped` issued no request, `Deleted(key)` removed `key`, `Failed(key)` is an
      exception that was logged and swallowed, with the key of the request that
      failed, or None when it was thrown before any request. */
  datatype DeleteStatus = Skipped | Deleted(key: string) | Failed(attempted: Option<string>)

  /** The key a delete request was issued for, if any. */
  function RequestedKey(st: DeleteStatus): Option<string> {
    match st
    case Skipped => None
    case Deleted(k) => Some(k)
    case Failed(k) => k
  }

  /** `deleteFile`: best-effort removal of the object an image URL names. `parse`
      is URI parsing; `deleteObject(key)` is the store's delete, false when it throws. */
  function DeleteFile(fileUrl: Option<string>, parse: string -> UriPath, deleteObject: string -> bool): (st: DeleteStatus)
    ensures (fileUrl.None? || fileUrl.value == "") ==> st == Skipped
    ensures RequestedKey(st).Some? <==>
      fileUrl.Some? && fileUrl.value != "" && parse(fileUrl.value).Path? &&
      KeyFromPath(parse(fileUrl.value).path) != ""
    ensures RequestedKey(st).Some? ==>
      RequestedKey(st).value == KeyFromPath(parse(fileUrl.value).path) &&
      (st.Deleted? <==> deleteObject(RequestedKey(st).value))
    ensures fileUrl.Some? && fileUrl.value != "" && parse(fileUrl.value).NoPath? ==> st == Failed(None)
    ensures (fileUrl.Some? && fileUrl.value != "" &&
             (parse(fileUrl.value).SyntaxError? ||
              (parse(fileUrl.value).Path? && KeyFromPath(parse(fileUrl.value).path) == ""))) ==>
      st == Skipped
  {
    if fileUrl.None? || fileUrl.value == "" then Skipped
    else
      match GetFileKeyFromUrl(parse(fileUrl.value))
      case Failure(_) => Failed(None)
      case Success(key) =>
        if key.None? || key.value == "" then Skipped
        else if deleteObject(key.value) then Deleted(key.value)
        else Failed(Some(key.value))
  }

  /** An uploaded object can be deleted through its URL: when the URL's path is
      "/" followed by the key, deleting by that URL requests exactly that key. */
  lemma UploadThenDeleteRequestsKey(file: MultipartFile, dirName: string, uuid: string,
                                    urlOf: string -> string, parse: string -> UriPath, deleteObject: string -> bool)
    requires Upload(file, dirName, uuid, urlOf).Success?
    requires var up := Upload(file, dirName, uuid, urlOf).value;
      up.url != "" && parse(up.url) == Path("/" + up.key)
    ensures var up := Upload(file, dirName, uuid, urlOf).value;
      RequestedKey(DeleteFile(Some(up.url), parse, deleteObject)) == Some(up.key)
  {
  }
}

=== FILE: strings.dfy ===
/** The two string operations the core relies on: `Collectors.joining` and
    `String.contains`. */
module Strings {

  /** Total length of the parts. */
  function PartsLength(parts: seq<string>): nat
    decreases |parts|
  {
    if |parts| == 0 then 0 else |parts[0]| + PartsLength(parts[1..])
  }

  /** `parts` separated by `sep`; no parts join to "". The join starts with the
      first part, ends with the last, and adds one separator between neighbours. */
  function Join(parts: seq<string>, sep: string): (r: string)
    ensures |parts| == 0 ==> r == ""
    ensures |parts| > 0 ==> parts[0] <= r
    ensures |parts| > 0 ==> |r| == PartsLength(parts) + (|parts| - 1) * |sep|
    decreases |parts|
  {
    if |parts| == 0 then ""
    else if |parts| == 1 then parts[0]
    else parts[0] + sep + Join(parts[1..], sep)
  }

  /** Joining two non-empty lists puts one separator between their joins. */
  lemma {:induction false} JoinAppend(a: seq<string>, b: seq<string>, sep: string)
    requires |a| > 0 && |b| > 0
    ensures Join(a + b, sep) == Join(a, sep) + sep + Join(b, sep)
    decreases |a|
  {
    if |a| == 1 {
      assert (a + b)[1..] == b;
    } else {
      assert (a + b)[1..] == a[1..] + b;
      JoinAppend(a[1..], b, sep);
    }
  }

  /** `t` is a contiguous block of `s` starting at `s[i]`. */
  predicate OccursAt(s: string, t: string, i: int) {
    0 <= i && i + |t| <= |s| && s[i..i + |t|] == t
  }

  /** `s.contains(t)`: `t` is a prefix of `s` or of one of its suffixes. Every string
      contains "". */
  predicate Contains(s: string, t: string)
    ensures t <= s ==> Contains(s, t)
    ensures Contains(s, t) ==> |t| <= |s|
    ensures |t| == |s| ==> (Contains(s, t) <==> s == t)
    decreases |s|
  {
    t <= s || (|s| > 0 && Contains(s[1..], t))
  }

  /** An occurrence of `t` at position `i` makes `s` contain `t`. */
  lemma {:induction false} OccurrenceGivesContains(s: string, t: string, i: int)
    requires OccursAt(s, t, i)
    ensures Contains(s, t)
    decreases i
  {
    if i > 0 {
      assert s[1..][i - 1..i - 1 + |t|] == s[i..i + |t|];
      OccurrenceGivesContains(s[1..], t, i - 1);
    }
  }

  /** When `s` contains `t`, some position holds an occurrence of `t`. */
  lemma {:induction false} ContainsGivesOccurrence(s: string, t: string)
    requires Contains(s, t)
    ensures exists i :: OccursAt(s, t, i)
    decreases |s|
  {
    if t <= s {
      assert OccursAt(s, t, 0);
    } else {
      ContainsGivesOccurrence(s[1..], t);
      var i :| OccursAt(s[1..], t, i);
      assert s[i + 1..i + 1 + |t|] == s[1..][i..i + |t|];
      assert OccursAt(s, t, i + 1);
    }
  }

  /** `Contains` holds exactly when `t` occurs in `s` at some position. */
  lemma ContainsIffOccurs(s: string, t: string)
    ensures Contains(s, t) <==> exists i :: OccursAt(s, t, i)
  {
    if Contains(s, t) {
      ContainsGivesOccurrence(s, t);
    }
    if exists i :: OccursAt(s, t, i) {
      var i :| OccursAt(s, t, i);
      OccurrenceGivesContains(s, t, i);
    }
  }

  /** Prepending text before `s` keeps whatever `s` contains. */
  lemma {:induction false} ContainsExtendLeft(u: string, s: string, t: string)
    requires Contains(s, t)
    ensures Contains(u + s, t)
    decreases |u|
  {
    if |u| > 0 {
      assert (u + s)[1..] == u[1..] + s;
      ContainsExtendLeft(u[1..], s, t);
    } else {
      assert u + s == s;
    }
  }

  /** Every part appears verbatim in the joined string. */
  lemma {:induction false} JoinContainsParts(parts: seq<string>, sep: string, i: int)
    requires 0 <= i < |parts|
    ensures Contains(Join(parts, sep), parts[i])
    decreases |parts|
  {
    if i > 0 {
      JoinContainsParts(parts[1..], sep, i - 1);
      ContainsExtendLeft(parts[0] + sep, Join(parts[1..], sep), parts[i]);
      assert Join(parts, sep) == parts[0] + sep + Join(parts[1..], sep);
    }
  }

  /** A string without the first character of `t` does not contain `t`. */
  lemma {:induction false} FirstCharAbsent(s: string, t: string)
    requires |t| > 0 && forall i :: 0 <= i < |s| ==> s[i] != t[0]
    ensures !Contains(s, t)
    decreases |s|
  {
    if |s| == 0 {
      assert !(t <= s);
    } else {
      assert s[0] != t[0];
      assert !(t <= s);
      assert forall i :: 0 <= i < |s[1..]| ==> s[1..][i] == s[i + 1];
      FirstCharAbsent(s[1..], t);
    }
  }
}

=== FILE: wrappers.dfy ===
/** Option and Result, and the in-order fallible map that a Java stream
    `map(...).collect(...)` performs when the mapping function may throw. */
module Wrappers {

  /** A value or its absence. In this model None also stands for a Java `null`. */
  datatype Option<+T> = None | Some(value: T) {

    /** The value, or `default` when absent (`Optional.orElse`, `getOrDefault`). */
    function GetOr(default: T): T {
      match this
      case Some(v) => v
      case None => default
    }
  }

  /** A value, or the failure that ended the computation. Usable with `:-`. */
  datatype Result<+R, +E> = Success(value: R) | Failure(error: E) {

    predicate IsFailure() {
      Failure?
    }

    function PropagateFailure<U>(): Result<U, E>
      requires Failure?
    {
      Failure(error)
    }

    function Extract(): R
      requires Success?
    {
      value
    }
  }

  /** Applies `f` to every element in order. The first element whose result is a
      failure ends the walk with that failure; otherwise the results are collected
      one per element, in order. */
  function MapResult<A, B, E>(xs: seq<A>, f: A -> Result<B, E>): (r: Result<seq<B>, E>)
    ensures r.Success? <==> forall i :: 0 <= i < |xs| ==> f(xs[i]).Success?
    ensures r.Success? ==> |r.value| == |xs|
    ensures r.Success? ==> forall i :: 0 <= i < |xs| ==> f(xs[i]) == Success(r.value[i])
    ensures r.Failure? ==>
      exists k :: 0 <= k < |xs| && f(xs[k]) == Failure(r.error) &&
        forall j :: 0 <= j < k ==> f(xs[j]).Success?
    decreases |xs|
  {
    if |xs| == 0 then Success([])
    else
      match f(xs[0])
      case Failure(e) => Failure(e)
      case Success(y) =>
        var rest := MapResult(xs[1..], f);
        match rest
        case Failure(e) =>
          ghost var k :| 0 <= k < |xs[1..]| && f(xs[1..][k]) == Failure(e) &&
            forall j :: 0 <= j < k ==> f(xs[1..][j]).Success?;
          assert f(xs[k + 1]) == Failure(e);
          assert forall j :: 0 <= j < k + 1 ==> f(xs[j]).Success? by {
            forall j | 0 <= j < k + 1 ensures f(xs[j]).Success? {
              if j > 0 { assert xs[j] == xs[1..][j - 1]; }
            }
          }
          Failure(e)
        case Success(ys) =>
          assert forall i :: 1 <= i < |xs| ==> xs[i] == xs[1..][i - 1];
          Success([y] + ys)
  }

  /** Two mapping functions that agree on every element give the same outcome. */
  lemma {:induction false} MapResultAgrees<A, B, E>(xs: seq<A>, f: A -> Result<B, E>, g: A -> Result<B, E>)
    requires forall i :: 0 <= i < |xs| ==> f(xs[i]) == g(xs[i])
    ensures MapResult(xs, f) == MapResult(xs, g)
    decreases |xs|
  {
    if |xs| > 0 {
      assert forall i :: 0 <= i < |xs[1..]| ==> xs[1..][i] == xs[i + 1];
      MapResultAgrees(xs[1..], f, g);
    }
  }
}
